=== FILE: README.md ===
# Padel/tennis events console — a Dafny model of its collection logic

The console keeps three kinds of records in browser memory. A **team** has an
id, a name and two players. An **event** has a date, a capacity, the ids of its
enrolled teams and an optional list of **matches**. A match names two teams and
holds two scores and a completion flag. The top-level component owns the event
list and the team roster. It changes them only through five handlers: enrol,
unenrol, update score, add team and delete team. The views compute what they
show from these collections and send commands (intents) back up.

This project models that logic as pure Dafny functions over immutable
datatypes, with proofs about them:

- `Seqs` (`seqs.dfy`): order-preserving filtering and a stable sort by an
  integer key. ECMAScript requires `Array.prototype.sort` to be stable, and a
  comparator `(a, b) => f(a) - f(b)` sorts ascending by `f`. Descending sorts
  (`f(b) - f(a)`) are therefore stable sorts by `-f`.
- `Model` (`model.dfy`): the records, the state, the "is past" test and the
  team-name lookup with its `'Unknown Team'` fallback.
- `Handlers` (`handlers.dfy`): the five handlers, a `Dispatch` over the intent
  type, and the referential-integrity invariant `Consistent`.
- `Controls` (`controls.dfy`): the controls the views share. These are the
  score-edit and complete intents, the enrol selector's options, and its
  `onChange` guard.
- `EventList`, `MatchTracker`, `EventDetails`, `TeamManager`: one module per
  view component.

Dates are integer millisecond timestamps. The current instant `now` is a
parameter. The id timestamp of a new team is a parameter too.

Two behaviours of the code are easy to miss:

- A tied match shows `team2` as the winner (`MatchTracker.WinnerSides`).
- The code's `?.name || 'Unknown Team'` shows "Unknown Team" both for an id
  with no team and for a team whose name is empty (`Model.TeamName`).

## Model

| member | source | states |
|---|---|---|
| Model.FindTeam | src/components/EventDetails.tsx:35-37 | Finds nothing iff no roster team has the id. Otherwise it returns a roster team with that id, and no earlier team has it. |
| Model.MatchesOf | src/components/MatchTracker.tsx:12 | `event.matches \|\| []` (and the `?. … \|\| []` of EventDetails.tsx:43-44): a present list is read as is, and the result is empty exactly when the list is absent or empty. |
| Model.PastIsFinal | src/components/EventDetails.tsx:21 | `isPast` is a strict comparison: an event is not past at its own instant and is past one millisecond later. Once past, it stays past as time advances. |
| Model.TeamName | src/components/EventList.tsx:32-34 | Never empty. It is the first matching team's name when that name is non-empty, and "Unknown Team" otherwise, including when no team matches. |
| Handlers.Without | src/App.tsx:98 | The id is gone. Every other id keeps its count. A list without the id is returned unchanged. |
| Handlers.WithoutConcat | src/App.tsx:98 | Removal distributes over concatenation, and a one-id list loses its id iff it is the removed one. Together these fix the result: the remaining ids keep their relative order. |
| Handlers.Enroll | src/App.tsx:86-93 | Keeps the number and order of events. Only `enrolledTeams` of events with the target id can change. There the team is listed afterwards: appended at the end if it was absent, and the event is unchanged if it was present. |
| Handlers.EnrollIdempotent | src/App.tsx:88-91 | Enrolling the same team twice equals enrolling it once. |
| Handlers.EnrollListsOnce | src/App.tsx:88-89 | A team that was absent is listed exactly once afterwards. Every other id keeps its count. |
| Handlers.EnrollNoDup | src/App.tsx:88-89 | Enrolment never creates a duplicate. |
| Handlers.EnrollIgnoresCapacity | src/App.tsx:86-93 | A full event still gains the team, so enrolment can exceed `maxTeams`. |
| Handlers.Unenroll | src/App.tsx:95-102 | Keeps the number and order of events. Events with other ids are unchanged. The target loses every copy of the team, and every other id keeps its count. Its list is exactly `Without` of the old list, so the remaining ids keep their relative order. |
| Handlers.UnenrollIdempotent | src/App.tsx:97-98 | Unenrolling twice equals unenrolling once. |
| Handlers.UnenrollUndoesEnroll | src/App.tsx:86-102 | If no target event lists the team, unenrolling after enrolling restores the events exactly. |
| Handlers.SetScores | src/App.tsx:109-111 | Each match with the id gets the new scores and flag and keeps its id, event id and teams. All other matches are unchanged. |
| Handlers.UpdateScore | src/App.tsx:104-116 | Only `matches` can change, and match-less events stay match-less. Match lists keep their length. Each match with the id becomes the old match with the new scores and flag, already completed or not. All other matches are unchanged. |
| Handlers.UpdateScoreLastWins | src/App.tsx:104-116 | A later update to the same match overrides an earlier one, even after completion. Repeating an update changes nothing. |
| Handlers.AddTeam | src/App.tsx:118-120 | The roster grows by one, the old roster is a prefix, and the new team is last. |
| Handlers.DeleteTeam | src/App.tsx:122-129 | Every team with the id is dropped and the others remain. No event lists the id afterwards. Each event's list is exactly `Without` of its old list, so other ids keep their counts and order. No other event field changes, so matches keep stale team ids. |
| Handlers.DeleteTeamRosterOrder | src/App.tsx:123 | The roster filter distributes over splitting the roster, and a one-team roster keeps its team iff the id differs. So the remaining teams keep their order and copies. |
| Handlers.DeleteUndoesAdd | src/App.tsx:118-129 | Adding a team and then deleting its id gives the same state as deleting the id directly. |
| Handlers.Dispatch | src/App.tsx:179-213 | Event intents leave the roster alone. Adding a team leaves the events alone. No intent changes the number of events. |
| Handlers.DispatchKeepsConsistent | src/App.tsx:86-129 | Every handler keeps these two facts: each enrolled id names a roster team, and no event lists a team twice. Enrolment needs a roster id, which the selector guarantees. Deletion keeps the first fact because of its cascade. |
| Controls.OrZero | src/components/MatchTracker.tsx:69 | `parseInt(...) \|\| 0`: NaN becomes 0, and any number passes through. |
| Controls.EditScore1 | src/components/MatchTracker.tsx:69 | Editing score 1 sends the parsed value and score 2 unchanged, with `completed = false`. |
| Controls.EditScore2 | src/components/MatchTracker.tsx:85 | Editing score 2 sends score 1 unchanged and the parsed value, with `completed = false`. |
| Controls.Complete | src/components/MatchTracker.tsx:91 | "Complete" sends both current scores unchanged, with `completed = true`. |
| Controls.CompleteKeepsScores | src/components/EventDetails.tsx:263 | After "Complete", the match in the same place is the same match marked completed. |
| Controls.CompleteIdempotent | src/components/MatchTracker.tsx:91 | Completing twice equals completing once. |
| Controls.EditScoreEffect | src/components/EventDetails.tsx:234-252 | A score edit changes only that score and reopens the match. |
| Controls.EnrollOptions | src/components/EventList.tsx:145-146 | The options are exactly the roster teams whose id is not enrolled. A duplicate-free roster gives duplicate-free options. |
| Controls.EnrollOptionsOrder | src/components/EventDetails.tsx:112-113 | The options keep roster order. |
| Controls.SelectTeam | src/components/EventList.tsx:136-141 | Choosing the empty placeholder sends nothing. Any other value sends an enrolment of that id into this event. |
| EventList.UpcomingEvents | src/components/EventList.tsx:14-16 | Holds exactly the events with `date >= now`, ascending by date. |
| EventList.PastEvents | src/components/EventList.tsx:17-19 | Holds exactly the events with `date < now`, descending by date. |
| EventList.SectionsPartition | src/components/EventList.tsx:14-19 | The two sections together are a permutation of the events. |
| EventList.UpcomingStable | src/components/EventList.tsx:14-16 | Upcoming events with equal dates keep their input order. |
| EventList.PastStable | src/components/EventList.tsx:17-19 | Past events with equal dates keep their input order. |
| EventList.EventCard | src/components/EventList.tsx:100-179 | The badge shows iff the event is past. The selector shows iff the event is not past and the roster is non-empty, and it offers exactly the `EnrollOptions` list: the non-enrolled teams in roster order. Every enrolled id gets a chip named by `TeamName`. Unenrol shows iff the event is not past. |
| EventList.CardsAgreeWithSections | src/components/EventList.tsx:100-167 | Cards in the past section carry the badge and have no enrol or unenrol controls. Cards in the upcoming section have no badge, have unenrol, and have the selector iff the roster is non-empty. |
| EventList.OfferedTeamEnrolls | src/components/EventList.tsx:136-146 | Choosing an offered team with a non-empty id appends exactly that id to the event. The intent meets the precondition of `DispatchKeepsConsistent`. |
| MatchTracker.Tagged | src/components/MatchTracker.tsx:12 | One entry per match of the event, in order, each carrying the event's name and date. |
| MatchTracker.AllMatches | src/components/MatchTracker.tsx:11-13 | The first event's matches come first, tagged and in stored order. |
| MatchTracker.AllMatchesOne | src/components/MatchTracker.tsx:11-13 | A single event flattens to its tagged matches. |
| MatchTracker.AllMatchesMembers | src/components/MatchTracker.tsx:11-13 | The flattened list holds exactly the tagged matches of the events. |
| MatchTracker.AllMatchesConcat | src/components/MatchTracker.tsx:11-13 | Flattening distributes over concatenation, so the blocks follow event order. |
| MatchTracker.MatchlessEventContributesNothing | src/components/MatchTracker.tsx:12 | An event with an absent or empty match list adds nothing. |
| MatchTracker.ActiveMatches | src/components/MatchTracker.tsx:15 | Holds exactly the flattened matches that are not completed. |
| MatchTracker.ActiveMatchesOrder | src/components/MatchTracker.tsx:15 | The active list distributes over splitting the event list. For one event it is that event's open matches in stored order, so the whole list is in flattened order. |
| MatchTracker.CompletedMatches | src/components/MatchTracker.tsx:16-18 | Holds exactly the completed flattened matches, sorted by event date descending. |
| MatchTracker.TrackerPartition | src/components/MatchTracker.tsx:15-16 | Active and completed matches together are a permutation of all matches. |
| MatchTracker.CompletedStable | src/components/MatchTracker.tsx:16-18 | Completed matches with equal event dates keep their flattened order. |
| MatchTracker.Winner | src/components/MatchTracker.tsx:114 | The winner is one of the two teams. It is `team1` when score 1 is higher and `team2` when score 2 is higher. |
| MatchTracker.WinnerSides | src/components/MatchTracker.tsx:114 | With unequal scores, swapping the sides keeps the winner. On a tie the second-listed team wins. |
| EventDetails.DoneMatches | src/components/EventDetails.tsx:43 | Holds exactly the completed matches. It is empty when the match list is absent. |
| EventDetails.OpenMatches | src/components/EventDetails.tsx:44 | Holds exactly the matches that are not completed. It is empty when the match list is absent. |
| EventDetails.MatchGroupsPartition | src/components/EventDetails.tsx:43-44 | The two groups together are a permutation of the event's matches. |
| EventDetails.MatchGroupsOrder | src/components/EventDetails.tsx:43-44 | Each group distributes over splitting the match list, and a single match lands in the open group iff it is not completed, else in the done group. So both groups keep stored order. |
| EventDetails.MatchCardOf | src/components/EventDetails.tsx:229-274 | Editable iff the match is open and the event is not past. "Final" shows iff completed. A card is never both. |
| EventDetails.EnrolledTeams | src/components/EventDetails.tsx:129-149 | Every card is a roster team whose id is enrolled. Every resolvable id shows its first team. With full referential integrity every id gets a card. |
| EventDetails.EnrolledTeamsConcat | src/components/EventDetails.tsx:129-149 | Resolving distributes over splitting the id list, so the cards follow enrolment order. |
| EventDetails.EnrolledTeamsOne | src/components/EventDetails.tsx:130-133 | One id gives the first roster team with that id, or no card when the roster has none. With the previous row this fixes the whole list. |
| EventDetails.EnrolledCards | src/components/EventDetails.tsx:139-146 | One card per entry of `EnrolledTeams`, in the same order, so in enrolment order. Remove shows iff the event is not past. |
| EventDetails.Cards | src/components/EventDetails.tsx:166-193 | One card per match, in the order of its group. |
| EventDetails.DetailsOf | src/components/EventDetails.tsx:21-198 | The badge shows iff past. The selector shows iff not past, even with an empty roster, and offers exactly the `EnrollOptions` list. The match section shows iff there are matches. Open-match cards are editable iff not past. Completed-match cards are read-only and final. Each card group follows its match group in order. |
| EventDetails.PastEventLocksOpenMatches | src/components/EventDetails.tsx:229 | An open match of a past event is read-only here, yet the match tracker still lists it as active. |
| TeamManager.Decimal | src/components/TeamManager.tsx:21 | The spelling of the timestamp is a non-empty string of decimal digits with no leading zero. |
| TeamManager.DecimalRoundTrip | src/components/TeamManager.tsx:21 | Reading the spelling back gives the timestamp. |
| TeamManager.NewTeamId | src/components/TeamManager.tsx:21 | The id is "t" followed by the decimal digits of `now`: reading the digits after the "t" back gives `now`. |
| TeamManager.NewTeamIdInjective | src/components/TeamManager.tsx:21 | Different submit instants give different ids. |
| TeamManager.Toggle | src/components/TeamManager.tsx:42 | "Add Team" flips visibility and keeps the fields. |
| TeamManager.ToggleTwice | src/components/TeamManager.tsx:42 | Toggling twice restores the form. |
| TeamManager.Edit | src/components/TeamManager.tsx:59-81 | Typing changes exactly the edited field. |
| TeamManager.Cancel | src/components/TeamManager.tsx:96-101 | Cancel hides the form and clears all three fields, whatever they held. |
| TeamManager.Submit | src/components/TeamManager.tsx:17-32 | Creates a team iff all three fields are non-empty. The team carries exactly the entered name and players and the id for `now`, and the form ends cleared and hidden. A failed submit leaves the form unchanged. |
| TeamManager.SubmitToApp | src/components/TeamManager.tsx:17-32 | A successful submit appends the new team to the roster and leaves the events alone. A failed one changes nothing. |
| TeamManager.SubmitKeepsConsistent | src/components/TeamManager.tsx:17-32 | Submitting keeps the state consistent. |

## Left out

- src/components/Home.tsx is the remote-data variant of the handlers. It calls `setEvents` and `setTeams`, which it never defines, so it has no coherent behaviour beyond the handlers above.
- src/trpc.ts and src/main.tsx only create the remote-call client and bootstrap the app. They are I/O and wiring.
- src/components/AuthPage.tsx only switches between a login form and a signup form, neither of which is part of this model. It has no credential logic.
- Date strings: parsing and `toLocaleDateString` formatting are JavaScript `Date` behaviour, so dates are integer timestamps here. An event whose date string does not parse compares false both ways and appears in neither section. The model cannot express such an event.
- The current time: each component, and each `EventCard`, reads its own `new Date()`. The model uses one `now` for the whole render.
- `Date.now()`: the time used in a new team's id is an input `now: nat`.
- TeamManager.Decimal: spells every timestamp in plain digits. JavaScript switches to exponent form from 10^21 on, a value no millisecond clock reaches, so the model does not describe that form.
- Text-to-number parsing: `parseInt` is abstracted to its result, a number or NaN. The `min="0"` attribute does not constrain typed values, so negative scores flow through, as in the code.
- Stale closures: each handler builds its result from the `events`/`teams` captured at render time. Two handler calls within one render would both start from that snapshot. The model applies one intent to each state.
- Rendering: markup, CSS, icons and React keys. Player names under team names. The "No … events/matches" placeholders.
- Navigation: view switching, `selectedEventId`, the back button, and the card buttons that only select an event.
- The HTML `required` attribute: the browser's own empty-field check matches `handleSubmit`'s condition and adds nothing to it.
- The stored `status` field is carried in `Event` but never read.

=== FILE: controls.dfy ===
/** The controls both event views and the match tracker share: the enrol
    selector, and the score intents. Editing one score keeps the other and
    clears the completion flag; "Complete" resends both current scores with
    the flag set. Score text is abstracted to the result of `parseInt`,
    which is a number or NaN. */
module Controls {
  import opened Seqs
  import opened Model
  import opened Handlers

  /** What `parseInt` returns for the typed text. */
  datatype Parsed = NaN | Num(n: int)

  /** `parseInt(value) || 0`: NaN (and zero) become zero. */
  function OrZero(p: Parsed): (r: int)
    ensures p.NaN? ==> r == 0
    ensures p.Num? ==> r == p.n
  {
    match p
    case NaN => 0
    case Num(n) => if n == 0 then 0 else n
  }

  /** Typing into the first score box. */
  function EditScore1(m: Match, input: Parsed): (r: Intent)
    ensures r.UpdateMatch? && r.matchId == m.id
    ensures r.score1 == OrZero(input) && r.score2 == m.score2 && !r.completed
  {
    UpdateMatch(m.id, OrZero(input), m.score2, false)
  }

  /** Typing into the second score box. */
  function EditScore2(m: Match, input: Parsed): (r: Intent)
    ensures r.UpdateMatch? && r.matchId == m.id
    ensures r.score1 == m.score1 && r.score2 == OrZero(input) && !r.completed
  {
    UpdateMatch(m.id, m.score1, OrZero(input), false)
  }

  /** Pressing "Complete". */
  function Complete(m: Match): (r: Intent)
    ensures r.UpdateMatch? && r.matchId == m.id
    ensures r.score1 == m.score1 && r.score2 == m.score2 && r.completed
  {
    UpdateMatch(m.id, m.score1, m.score2, true)
  }

  /** Where match `m` sits in the event list. */
  predicate At(s: AppState, i: int, j: int, m: Match) {
    0 <= i < |s.events| && 0 <= j < |MatchesOf(s.events[i])| && MatchesOf(s.events[i])[j] == m
  }

  /** Completing a match marks it completed and keeps both scores. */
  lemma CompleteKeepsScores(s: AppState, m: Match, i: int, j: int)
    requires At(s, i, j, m)
    ensures At(Dispatch(s, Complete(m)), i, j, m.(completed := true))
  {
  }

  /** Completing twice is completing once. */
  lemma CompleteIdempotent(s: AppState, m: Match)
    ensures Dispatch(Dispatch(s, Complete(m)), Complete(m)) == Dispatch(s, Complete(m))
  {
    UpdateScoreLastWins(s.events, m.id, m.score1, m.score2, true, m.score1, m.score2, true);
  }

  /** A score edit changes just that score and reopens the match. */
  lemma EditScoreEffect(s: AppState, m: Match, i: int, j: int, input: Parsed)
    requires At(s, i, j, m)
    ensures At(Dispatch(s, EditScore1(m, input)), i, j, m.(score1 := OrZero(input), completed := false))
    ensures At(Dispatch(s, EditScore2(m, input)), i, j, m.(score2 := OrZero(input), completed := false))
  {
  }

  /** The teams the enrol selector offers: the roster minus the teams the
      event already lists, in roster order. */
  function EnrollOptions(e: Event, teams: seq<Team>): (r: seq<Team>)
    ensures forall t :: t in r <==> t in teams && t.id !in e.enrolledTeams
    ensures NoDup(teams) ==> NoDup(r)
  {
    if NoDup(teams) then FilterNoDup(teams, NotEnrolledIn(e)); Filter(teams, NotEnrolledIn(e))
    else Filter(teams, NotEnrolledIn(e))
  }

  /** The filter test `!event.enrolledTeams.includes(team.id)`. */
  function NotEnrolledIn(e: Event): Team -> bool {
    (t: Team) => t.id !in e.enrolledTeams
  }

  /** The options keep roster order: the options of a split roster are the
      options of each part, one after the other. */
  lemma EnrollOptionsOrder(e: Event, a: seq<Team>, b: seq<Team>)
    ensures EnrollOptions(e, a + b) == EnrollOptions(e, a) + EnrollOptions(e, b)
  {
    FilterConcat(a, b, NotEnrolledIn(e));
  }

  /** `onChange` of the enrol selector: the empty placeholder value sends
      nothing, any other value enrols that team id. */
  function SelectTeam(e: Event, value: string): (r: Option<Intent>)
    ensures r.Some? <==> value != ""
    ensures r.Some? ==> r.value == EnrollTeam(e.id, value)
  {
    if value != "" then Some(EnrollTeam(e.id, value)) else None
  }
}

=== FILE: event_details.dfy ===
/** The detail view of one event: its enrolment selector, the enrolled
    teams that exist on the roster, and its matches split by completion,
    each match card editable only while the match is open and the event is
    not past. */
module EventDetails {
  import opened Seqs
  import opened Model
  import opened Controls
  import MatchTracker

  /** `event.matches?.filter(m => m.completed) || []`. */
  function DoneMatches(e: Event): (r: seq<Match>)
    ensures forall m :: m in r <==> m in MatchesOf(e) && m.completed
    ensures e.matches.None? ==> r == []
  {
    Filter(MatchesOf(e), IsDone)
  }

  /** `event.matches?.filter(m => !m.completed) || []`. */
  function OpenMatches(e: Event): (r: seq<Match>)
    ensures forall m :: m in r <==> m in MatchesOf(e) && !m.completed
    ensures e.matches.None? ==> r == []
  {
    Filter(MatchesOf(e), IsOpen)
  }

  /** The two match groups together are a permutation of the event's
      matches. */
  lemma MatchGroupsPartition(e: Event)
    ensures multiset(DoneMatches(e)) + multiset(OpenMatches(e)) == multiset(MatchesOf(e))
  {
    FilterPartition(MatchesOf(e), IsDone, IsOpen);
  }

  /** Both groups keep stored order: each distributes over splitting the
      match list, and a one-match list lands in exactly one group. */
  lemma MatchGroupsOrder(e: Event, a: seq<Match>, b: seq<Match>, m: Match)
    ensures OpenMatches(e.(matches := Some(a + b)))
         == OpenMatches(e.(matches := Some(a))) + OpenMatches(e.(matches := Some(b)))
    ensures DoneMatches(e.(matches := Some(a + b)))
         == DoneMatches(e.(matches := Some(a))) + DoneMatches(e.(matches := Some(b)))
    ensures OpenMatches(e.(matches := Some([m]))) == if m.completed then [] else [m]
    ensures DoneMatches(e.(matches := Some([m]))) == if m.completed then [m] else []
  {
    FilterConcat(a, b, IsOpen);
    FilterConcat(a, b, IsDone);
    FilterSingleton(m, IsOpen);
    FilterSingleton(m, IsDone);
  }

  /** One rendered `MatchCard`: score inputs and the Complete button when
      `editable`, the "Final" badge when `final`. */
  datatype MatchCard = MatchCard(m: Match, editable: bool, final: bool)

  function MatchCardOf(m: Match, isPast: bool): (r: MatchCard)
    ensures r.m == m
    ensures r.editable <==> !m.completed && !isPast
    ensures r.final <==> m.completed
    ensures !(r.editable && r.final)
  {
    MatchCard(m, !m.completed && !isPast, m.completed)
  }

  /** The enrolled-team cards: each enrolled id resolved against the roster,
      ids without a team skipped (`team ? <card> : null`). */
  function EnrolledTeams(ids: seq<TeamId>, teams: seq<Team>): (r: seq<Team>)
    ensures |r| <= |ids|
    ensures forall t :: t in r ==> t in teams && t.id in ids
    ensures forall id :: id in ids && id in TeamIds(teams) ==> FindTeam(teams, id).value in r
    ensures (forall id :: id in ids ==> id in TeamIds(teams)) ==> |r| == |ids|
    decreases |ids|
  {
    if |ids| == 0 then []
    else
      var rest := EnrolledTeams(ids[1..], teams);
      assert forall id :: id in ids ==> id == ids[0] || id in ids[1..];
      match FindTeam(teams, ids[0])
      case Some(t) => [t] + rest
      case None => rest
  }

  /** The enrolled list follows enrolment order: resolving distributes over
      splitting the id list. */
  lemma {:induction false} EnrolledTeamsConcat(a: seq<TeamId>, b: seq<TeamId>, teams: seq<Team>)
    ensures EnrolledTeams(a + b, teams) == EnrolledTeams(a, teams) + EnrolledTeams(b, teams)
    decreases |a|
  {
    if |a| == 0 {
      assert a + b == b;
    } else {
      assert (a + b)[0] == a[0];
      assert (a + b)[1..] == a[1..] + b;
      EnrolledTeamsConcat(a[1..], b, teams);
    }
  }

  /** One id resolves to the first roster team with that id, or to nothing
      when the roster has none; with `EnrolledTeamsConcat` this pins down
      the whole list. */
  lemma EnrolledTeamsOne(id: TeamId, teams: seq<Team>)
    ensures EnrolledTeams([id], teams)
         == if id in TeamIds(teams) then [FindTeam(teams, id).value] else []
  {
    assert [id][1..] == [];
  }

  /** An enrolled team card and whether its Remove button is shown. */
  datatype EnrolledCard = EnrolledCard(team: Team, removable: bool)

  /** One card per resolved enrolled team, in enrolment order. */
  function EnrolledCards(e: Event, teams: seq<Team>, isPast: bool): (r: seq<EnrolledCard>)
    ensures |r| == |EnrolledTeams(e.enrolledTeams, teams)|
    ensures forall k :: 0 <= k < |r| ==>
              r[k].team == EnrolledTeams(e.enrolledTeams, teams)[k] && r[k].removable == !isPast
  {
    var shown := EnrolledTeams(e.enrolledTeams, teams);
    seq(|shown|, k requires 0 <= k < |shown| => EnrolledCard(shown[k], !isPast))
  }

  /** One card per match of `ms`, in order. */
  function Cards(ms: seq<Match>, isPast: bool): (r: seq<MatchCard>)
    ensures |r| == |ms|
    ensures forall k :: 0 <= k < |r| ==> r[k] == MatchCardOf(ms[k], isPast)
  {
    seq(|ms|, k requires 0 <= k < |ms| => MatchCardOf(ms[k], isPast))
  }

  /** What `EventDetails` renders that depends on data. */
  datatype Details = Details(
    completedBadge: bool,
    enrollOptions: Option<seq<Team>>,
    enrolled: seq<EnrolledCard>,
    showMatches: bool,
    openCards: seq<MatchCard>,
    doneCards: seq<MatchCard>)

  /** `EventDetails`: unlike the list card, the enrol selector only needs a
      future event (an empty roster gives an empty selector). */
  function DetailsOf(e: Event, teams: seq<Team>, now: Timestamp): (r: Details)
    ensures r.completedBadge <==> e.date < now
    ensures r.enrollOptions.Some? <==> e.date >= now
    ensures r.enrollOptions.Some? ==>
              forall t :: t in r.enrollOptions.value <==> t in teams && t.id !in e.enrolledTeams
    ensures r.enrollOptions.Some? ==> r.enrollOptions.value == EnrollOptions(e, teams)
    ensures |r.enrolled| == |EnrolledTeams(e.enrolledTeams, teams)|
    ensures forall k :: 0 <= k < |r.enrolled| ==>
              r.enrolled[k].team == EnrolledTeams(e.enrolledTeams, teams)[k]
              && (r.enrolled[k].removable <==> e.date >= now)
    ensures r.showMatches <==> |MatchesOf(e)| > 0
    ensures |r.openCards| == |OpenMatches(e)| && |r.doneCards| == |DoneMatches(e)|
    ensures forall k :: 0 <= k < |r.openCards| ==>
              r.openCards[k].m == OpenMatches(e)[k]
              && (r.openCards[k].editable <==> e.date >= now) && !r.openCards[k].final
    ensures forall k :: 0 <= k < |r.doneCards| ==>
              r.doneCards[k].m == DoneMatches(e)[k]
              && !r.doneCards[k].editable && r.doneCards[k].final
  {
    var past := IsPast(e, now);
    var open, done := OpenMatches(e), DoneMatches(e);
    assert forall k :: 0 <= k < |open| ==> !open[k].completed by {
      assert forall k :: 0 <= k < |open| ==> open[k] in open;
    }
    assert forall k :: 0 <= k < |done| ==> done[k].completed by {
      assert forall k :: 0 <= k < |done| ==> done[k] in done;
    }
    Details(
      past,
      if !past then Some(EnrollOptions(e, teams)) else None,
      EnrolledCards(e, teams, past),
      e.matches.Some? && |e.matches.value| > 0,
      Cards(open, past),
      Cards(done, past))
  }

  /** The two views disagree on past events: an open match of a past event
      is still listed as active (and editable) by the match tracker, while
      its card here is read-only. */
  lemma PastEventLocksOpenMatches(events: seq<Event>, i: int, m: Match, teams: seq<Team>, now: Timestamp)
    requires 0 <= i < |events| && events[i].date < now
    requires m in MatchesOf(events[i]) && !m.completed
    ensures MatchTracker.Tracked(m, events[i].name, events[i].date) in MatchTracker.ActiveMatches(events)
    ensures exists k :: 0 <= k < |DetailsOf(events[i], teams, now).openCards|
                        && DetailsOf(events[i], teams, now).openCards[k].m == m
                        && !DetailsOf(events[i], teams, now).openCards[k].editable
  {
    var e := events[i];
    var j :| 0 <= j < |MatchesOf(e)| && MatchesOf(e)[j] == m;
    assert MatchTracker.Tagged(e)[j] == MatchTracker.Tracked(m, e.name, e.date);
    MatchTracker.AllMatchesMembers(events);
    assert MatchTracker.FromSomeEvent(events, MatchTracker.Tracked(m, e.name, e.date));
    var open := OpenMatches(e);
    assert m in open;
    var k :| 0 <= k < |open| && open[k] == m;
    assert DetailsOf(e, teams, now).openCards[k].m == m;
  }
}

=== FILE: event_list.dfy ===
/** The event list view: events split into upcoming (soonest first) and
    past (most recent first) against the current instant, and one card per
    event with its enrolment controls. */
module EventList {
  import opened Seqs
  import opened Model
  import opened Handlers
  import opened Controls

  function Date(e: Event): int { e.date }

  /** Sorting by the negated date is sorting by `(a, b) => b.date - a.date`. */
  function NegDate(e: Event): int { -e.date }

  /** The filter test `new Date(e.date) >= now`. */
  function NotPastAt(now: Timestamp): Event -> bool {
    e => !IsPast(e, now)
  }

  /** The filter test `new Date(e.date) < now`. */
  function PastAt(now: Timestamp): Event -> bool {
    e => IsPast(e, now)
  }

  /** The "Upcoming Events" section. */
  function UpcomingEvents(events: seq<Event>, now: Timestamp): (r: seq<Event>)
    ensures forall e :: e in r <==> e in events && e.date >= now
    ensures forall i, j :: 0 <= i < j < |r| ==> r[i].date <= r[j].date
  {
    var kept := Filter(events, NotPastAt(now));
    var r := SortByKey(kept, Date);
    SameMembers(r, kept);
    r
  }

  /** The "Past Events" section. */
  function PastEvents(events: seq<Event>, now: Timestamp): (r: seq<Event>)
    ensures forall e :: e in r <==> e in events && e.date < now
    ensures forall i, j :: 0 <= i < j < |r| ==> r[i].date >= r[j].date
  {
    var kept := Filter(events, PastAt(now));
    var r := SortByKey(kept, NegDate);
    SameMembers(r, kept);
    assert forall i, j :: 0 <= i < j < |r| ==> r[i].date >= r[j].date by {
      forall i, j | 0 <= i < j < |r|
        ensures r[i].date >= r[j].date
      {
        assert NegDate(r[i]) <= NegDate(r[j]);
      }
    }
    r
  }

  /** The two sections together hold every event exactly as often as the
      input does: nothing is lost or duplicated. */
  lemma SectionsPartition(events: seq<Event>, now: Timestamp)
    ensures multiset(UpcomingEvents(events, now)) + multiset(PastEvents(events, now))
         == multiset(events)
  {
    FilterPartition(events, NotPastAt(now), PastAt(now));
  }

  /** Upcoming events dated at the same instant keep their input order, as
      a stable sort guarantees. */
  lemma UpcomingStable(events: seq<Event>, now: Timestamp, d: Timestamp)
    ensures WithKey(UpcomingEvents(events, now), Date, d) == WithKey(Filter(events, NotPastAt(now)), Date, d)
  {
    var up := Filter(events, NotPastAt(now));
    calc {
      WithKey(UpcomingEvents(events, now), Date, d);
      WithKey(SortByKey(up, Date), Date, d);
      { SortStable(up, Date, d); }
      WithKey(up, Date, d);
    }
  }

  /** Past events dated at the same instant keep their input order too
      (`k` is the negated date the sort compares). */
  lemma PastStable(events: seq<Event>, now: Timestamp, k: int)
    ensures WithKey(PastEvents(events, now), NegDate, k) == WithKey(Filter(events, PastAt(now)), NegDate, k)
  {
    var past := Filter(events, PastAt(now));
    calc {
      WithKey(PastEvents(events, now), NegDate, k);
      WithKey(SortByKey(past, NegDate), NegDate, k);
      { SortStable(past, NegDate, k); }
      WithKey(past, NegDate, k);
    }
  }

  /** One enrolled team on a card: its display name and whether the
      remove button is shown. */
  datatype Chip = Chip(text: string, removable: bool)

  /** What `EventCard` renders that depends on data. */
  datatype Card = Card(completedBadge: bool, enrollOptions: Option<seq<Team>>, chips: seq<Chip>)

  /** `EventCard`: the enrol selector needs a future event and a non-empty
      roster; unenrol buttons need a future event; every enrolled id gets a
      chip, unknown ids included. */
  function EventCard(e: Event, teams: seq<Team>, now: Timestamp): (r: Card)
    ensures r.completedBadge <==> e.date < now
    ensures r.enrollOptions.Some? <==> e.date >= now && |teams| > 0
    ensures r.enrollOptions.Some? ==>
              forall t :: t in r.enrollOptions.value <==> t in teams && t.id !in e.enrolledTeams
    ensures r.enrollOptions.Some? ==> r.enrollOptions.value == EnrollOptions(e, teams)
    ensures |r.chips| == |e.enrolledTeams|
    ensures forall k :: 0 <= k < |r.chips| ==>
              r.chips[k].text == TeamName(teams, e.enrolledTeams[k])
              && (r.chips[k].removable <==> e.date >= now)
  {
    var past := IsPast(e, now);
    Card(
      past,
      if !past && |teams| > 0 then Some(EnrollOptions(e, teams)) else None,
      seq(|e.enrolledTeams|, k requires 0 <= k < |e.enrolledTeams| =>
        Chip(TeamName(teams, e.enrolledTeams[k]), !past)))
  }

  /** A card agrees with the section it is rendered in: past-section cards
      carry the badge and no enrolment controls, upcoming-section cards the
      opposite. */
  lemma CardsAgreeWithSections(events: seq<Event>, teams: seq<Team>, now: Timestamp)
    ensures forall e :: e in PastEvents(events, now) ==>
              var c := EventCard(e, teams, now);
              c.completedBadge && c.enrollOptions.None?
              && forall k :: 0 <= k < |c.chips| ==> !c.chips[k].removable
    ensures forall e :: e in UpcomingEvents(events, now) ==>
              var c := EventCard(e, teams, now);
              !c.completedBadge && (c.enrollOptions.Some? <==> |teams| > 0)
              && forall k :: 0 <= k < |c.chips| ==> c.chips[k].removable
  {
  }

  /** Choosing any offered team with a non-empty id really enrols it: the
      event's list grows by exactly that id, and the intent is one the
      consistency argument of `DispatchKeepsConsistent` covers. */
  lemma OfferedTeamEnrolls(s: AppState, i: int, t: Team)
    requires 0 <= i < |s.events|
    requires t in EnrollOptions(s.events[i], s.teams) && t.id != ""
    ensures SelectTeam(s.events[i], t.id).Some?
    ensures Offered(s, SelectTeam(s.events[i], t.id).value)
    ensures Dispatch(s, SelectTeam(s.events[i], t.id).value).events[i].enrolledTeams
         == s.events[i].enrolledTeams + [t.id]
  {
  }
}

=== FILE: handlers.dfy ===
/** The five state-transition handlers of the top-level component: enrol,
    unenrol, score update, add team and delete team. Each returns a new
    snapshot of the collection it replaces. The views never mutate state
    themselves; they dispatch an `Intent` upward. */
module Handlers {
  import opened Seqs
  import opened Model

  /** The filter test `id !== x`. */
  function OtherId(x: TeamId): TeamId -> bool {
    id => id != x
  }

  /** The filter test `t.id !== x`. */
  function OtherTeam(x: TeamId): Team -> bool {
    (t: Team) => t.id != x
  }

  /** `ids.filter(id => id !== x)`. */
  function Without(ids: seq<TeamId>, x: TeamId): (r: seq<TeamId>)
    ensures x !in r
    ensures forall y :: y != x ==> multiset(r)[y] == multiset(ids)[y]
    ensures x !in ids ==> r == ids
  {
    var keep := OtherId(x);
    FilterCount(ids, keep);
    if x !in ids then FilterKeepsAll(ids, keep); Filter(ids, keep)
    else Filter(ids, keep)
  }

  /** Removing the same id twice is removing it once. */
  lemma WithoutIdempotent(ids: seq<TeamId>, x: TeamId)
    ensures Without(Without(ids, x), x) == Without(ids, x)
  {
  }

  /** Removal keeps relative order: it distributes over concatenation, and
      on one id it drops exactly that id. */
  lemma WithoutConcat(a: seq<TeamId>, b: seq<TeamId>, x: TeamId)
    ensures Without(a + b, x) == Without(a, x) + Without(b, x)
    ensures forall y :: Without([y], x) == if y == x then [] else [y]
  {
    FilterConcat(a, b, OtherId(x));
    forall y ensures Without([y], x) == if y == x then [] else [y] {
      FilterSingleton(y, OtherId(x));
    }
  }

  // ---------------------------------------------------------------- enrol

  /** `handleEnroll`: every event with id `eventId` that does not list
      `teamId` gets it appended; nothing consults `maxTeams`. */
  function Enroll(events: seq<Event>, eventId: EventId, teamId: TeamId): (r: seq<Event>)
    ensures |r| == |events|
    ensures forall i :: 0 <= i < |events| ==>
              r[i].(enrolledTeams := events[i].enrolledTeams) == events[i]
    ensures forall i :: 0 <= i < |events| && events[i].id != eventId ==> r[i] == events[i]
    ensures forall i :: 0 <= i < |events| && events[i].id == eventId ==>
              teamId in r[i].enrolledTeams
              && (teamId in events[i].enrolledTeams ==> r[i] == events[i])
              && (teamId !in events[i].enrolledTeams ==>
                    r[i].enrolledTeams == events[i].enrolledTeams + [teamId])
  {
    seq(|events|, i requires 0 <= i < |events| =>
      var e := events[i];
      if e.id == eventId && teamId !in e.enrolledTeams
      then e.(enrolledTeams := e.enrolledTeams + [teamId])
      else e)
  }

  /** Enrolling twice is enrolling once. */
  lemma EnrollIdempotent(events: seq<Event>, eventId: EventId, teamId: TeamId)
    ensures Enroll(Enroll(events, eventId, teamId), eventId, teamId)
         == Enroll(events, eventId, teamId)
  {
  }

  /** After enrolment the team is listed exactly once in each target event
      that did not list it before, and other ids keep their counts. */
  lemma EnrollListsOnce(events: seq<Event>, eventId: EventId, teamId: TeamId, i: int)
    requires 0 <= i < |events| && events[i].id == eventId
    requires teamId !in events[i].enrolledTeams
    ensures multiset(Enroll(events, eventId, teamId)[i].enrolledTeams)[teamId] == 1
    ensures forall y :: y != teamId ==>
              multiset(Enroll(events, eventId, teamId)[i].enrolledTeams)[y]
              == multiset(events[i].enrolledTeams)[y]
  {
  }

  /** Enrolment keeps a duplicate-free list duplicate-free. */
  lemma EnrollNoDup(events: seq<Event>, eventId: EventId, teamId: TeamId, i: int)
    requires 0 <= i < |events| && NoDup(events[i].enrolledTeams)
    ensures NoDup(Enroll(events, eventId, teamId)[i].enrolledTeams)
  {
  }

  /** Enrolment ignores capacity: a full event still grows past `maxTeams`. */
  lemma EnrollIgnoresCapacity(events: seq<Event>, eventId: EventId, teamId: TeamId, i: int)
    requires 0 <= i < |events| && events[i].id == eventId
    requires teamId !in events[i].enrolledTeams
    requires |events[i].enrolledTeams| >= events[i].maxTeams
    ensures |Enroll(events, eventId, teamId)[i].enrolledTeams| > events[i].maxTeams
  {
  }

  // -------------------------------------------------------------- unenrol

  /** `handleUnenroll`: every event with id `eventId` drops all copies of
      `teamId`; the other ids keep their relative order. */
  function Unenroll(events: seq<Event>, eventId: EventId, teamId: TeamId): (r: seq<Event>)
    ensures |r| == |events|
    ensures forall i :: 0 <= i < |events| ==>
              r[i].(enrolledTeams := events[i].enrolledTeams) == events[i]
    ensures forall i :: 0 <= i < |events| && events[i].id != eventId ==> r[i] == events[i]
    ensures forall i :: 0 <= i < |events| && events[i].id == eventId ==>
              teamId !in r[i].enrolledTeams
              && (forall y :: y != teamId ==>
                    multiset(r[i].enrolledTeams)[y] == multiset(events[i].enrolledTeams)[y])
              && r[i].enrolledTeams == Without(events[i].enrolledTeams, teamId)
  {
    seq(|events|, i requires 0 <= i < |events| =>
      var e := events[i];
      if e.id == eventId then e.(enrolledTeams := Without(e.enrolledTeams, teamId)) else e)
  }

  /** Unenrolling twice is unenrolling once. */
  lemma UnenrollIdempotent(events: seq<Event>, eventId: EventId, teamId: TeamId)
    ensures Unenroll(Unenroll(events, eventId, teamId), eventId, teamId)
         == Unenroll(events, eventId, teamId)
  {
    var once := Unenroll(events, eventId, teamId);
    forall i | 0 <= i < |events| && events[i].id == eventId
      ensures Without(once[i].enrolledTeams, teamId) == once[i].enrolledTeams
    {
      WithoutIdempotent(events[i].enrolledTeams, teamId);
    }
  }

  /** Unenrolling undoes an enrolment: if no target event listed the team,
      enrolling and then unenrolling it restores the events. */
  lemma {:induction false} UnenrollUndoesEnroll(events: seq<Event>, eventId: EventId, teamId: TeamId)
    requires forall i :: 0 <= i < |events| && events[i].id == eventId ==>
               teamId !in events[i].enrolledTeams
    ensures Unenroll(Enroll(events, eventId, teamId), eventId, teamId) == events
  {
    var enrolled := Enroll(events, eventId, teamId);
    var back := Unenroll(enrolled, eventId, teamId);
    forall i | 0 <= i < |events|
      ensures back[i] == events[i]
    {
      if events[i].id == eventId {
        var ids := events[i].enrolledTeams;
        WithoutConcat(ids, [teamId], teamId);
        assert Without([teamId], teamId) == [];
        assert back[i].enrolledTeams == ids;
      }
    }
  }

  // --------------------------------------------------------- score update

  /** The matches of one event after `handleUpdateScore`. */
  function SetScores(ms: seq<Match>, matchId: MatchId, score1: int, score2: int, completed: bool): (r: seq<Match>)
    ensures |r| == |ms|
    ensures forall j :: 0 <= j < |ms| && ms[j].id != matchId ==> r[j] == ms[j]
    ensures forall j :: 0 <= j < |ms| && ms[j].id == matchId ==>
              && r[j].id == ms[j].id && r[j].eventId == ms[j].eventId
              && r[j].team1 == ms[j].team1 && r[j].team2 == ms[j].team2
              && r[j].score1 == score1 && r[j].score2 == score2 && r[j].completed == completed
  {
    seq(|ms|, j requires 0 <= j < |ms| =>
      if ms[j].id == matchId
      then ms[j].(score1 := score1, score2 := score2, completed := completed)
      else ms[j])
  }

  /** `handleUpdateScore`: every match with id `matchId`, in every event
      that has a match list, takes the new scores and completion flag. The
      update applies whether or not the match was already completed. */
  function UpdateScore(events: seq<Event>, matchId: MatchId, score1: int, score2: int, completed: bool): (r: seq<Event>)
    ensures |r| == |events|
    ensures forall i :: 0 <= i < |events| ==>
              r[i].(matches := events[i].matches) == events[i]
              && r[i].matches.Some? == events[i].matches.Some?
              && |MatchesOf(r[i])| == |MatchesOf(events[i])|
    ensures forall i, j :: 0 <= i < |events| && 0 <= j < |MatchesOf(events[i])| ==>
              var m, m' := MatchesOf(events[i])[j], MatchesOf(r[i])[j];
              (m.id != matchId ==> m' == m)
              && (m.id == matchId ==> m' == m.(score1 := score1, score2 := score2, completed := completed))
  {
    seq(|events|, i requires 0 <= i < |events| =>
      var e := events[i];
      match e.matches
      case Some(ms) => e.(matches := Some(SetScores(ms, matchId, score1, score2, completed)))
      case None => e)
  }

  /** A later score update overrides an earlier one for the same match,
      completed or not; in particular repeating an update changes nothing. */
  lemma UpdateScoreLastWins(events: seq<Event>, matchId: MatchId,
                            a1: int, a2: int, ac: bool, b1: int, b2: int, bc: bool)
    ensures UpdateScore(UpdateScore(events, matchId, a1, a2, ac), matchId, b1, b2, bc)
         == UpdateScore(events, matchId, b1, b2, bc)
  {
    var once := UpdateScore(events, matchId, b1, b2, bc);
    var twice := UpdateScore(UpdateScore(events, matchId, a1, a2, ac), matchId, b1, b2, bc);
    forall i | 0 <= i < |events|
      ensures twice[i] == once[i]
    {
      if events[i].matches.Some? {
        assert MatchesOf(twice[i]) == MatchesOf(once[i]);
      }
    }
  }

  // ---------------------------------------------------------------- teams

  /** `handleAddTeam`: the new team goes to the end of the roster. */
  function AddTeam(teams: seq<Team>, team: Team): (r: seq<Team>)
    ensures |r| == |teams| + 1
    ensures r[..|teams|] == teams && r[|teams|] == team
    ensures TeamIds(r) == TeamIds(teams) + {team.id}
  {
    teams + [team]
  }

  /** `handleDeleteTeam`: drop every team with that id from the roster and
      strip the id from every event's enrolment list. Match records keep
      whatever team ids they hold. */
  function DeleteTeam(s: AppState, teamId: TeamId): (r: AppState)
    ensures TeamIds(r.teams) == TeamIds(s.teams) - {teamId}
    ensures forall t :: t in r.teams <==> t in s.teams && t.id != teamId
    ensures |r.events| == |s.events|
    ensures forall i :: 0 <= i < |s.events| ==>
              r.events[i].(enrolledTeams := s.events[i].enrolledTeams) == s.events[i]
              && teamId !in r.events[i].enrolledTeams
              && (forall y :: y != teamId ==>
                    multiset(r.events[i].enrolledTeams)[y] == multiset(s.events[i].enrolledTeams)[y])
              && r.events[i].enrolledTeams == Without(s.events[i].enrolledTeams, teamId)
  {
    var teams := Filter(s.teams, OtherTeam(teamId));
    assert TeamIds(teams) == TeamIds(s.teams) - {teamId} by {
      forall id | id in TeamIds(s.teams) - {teamId}
        ensures id in TeamIds(teams)
      {
        var t :| t in s.teams && t.id == id;
        assert t in teams;
      }
    }
    var events := seq(|s.events|, i requires 0 <= i < |s.events| =>
      s.events[i].(enrolledTeams := Without(s.events[i].enrolledTeams, teamId)));
    AppState(events, teams)
  }

  /** The roster after a deletion keeps the order and the copies of the
      remaining teams: deletion distributes over splitting the roster, and
      a one-team roster keeps its team iff the id differs. */
  lemma DeleteTeamRosterOrder(s: AppState, a: seq<Team>, b: seq<Team>, t: Team, teamId: TeamId)
    ensures DeleteTeam(s.(teams := a + b), teamId).teams
         == DeleteTeam(s.(teams := a), teamId).teams + DeleteTeam(s.(teams := b), teamId).teams
    ensures DeleteTeam(s.(teams := [t]), teamId).teams == if t.id == teamId then [] else [t]
  {
    FilterConcat(a, b, OtherTeam(teamId));
    FilterSingleton(t, OtherTeam(teamId));
  }

  /** Adding a team and deleting its id leaves the same state as deleting
      the id straight away. */
  lemma DeleteUndoesAdd(s: AppState, team: Team)
    ensures DeleteTeam(s.(teams := AddTeam(s.teams, team)), team.id) == DeleteTeam(s, team.id)
  {
    FilterConcat(s.teams, [team], OtherTeam(team.id));
  }

  // ------------------------------------------------------------- dispatch

  /** A command a view sends up to the state holder. */
  datatype Intent =
    | EnrollTeam(eventId: EventId, teamId: TeamId)
    | UnenrollTeam(eventId: EventId, teamId: TeamId)
    | UpdateMatch(matchId: MatchId, score1: int, score2: int, completed: bool)
    | AddNewTeam(team: Team)
    | DeleteTeamById(teamId: TeamId)

  function Dispatch(s: AppState, intent: Intent): (r: AppState)
    ensures !intent.AddNewTeam? && !intent.DeleteTeamById? ==> r.teams == s.teams
    ensures intent.AddNewTeam? ==> r.events == s.events
    ensures |r.events| == |s.events|
  {
    match intent
    case EnrollTeam(e, t) => s.(events := Enroll(s.events, e, t))
    case UnenrollTeam(e, t) => s.(events := Unenroll(s.events, e, t))
    case UpdateMatch(m, a, b, c) => s.(events := UpdateScore(s.events, m, a, b, c))
    case AddNewTeam(t) => s.(teams := AddTeam(s.teams, t))
    case DeleteTeamById(t) => DeleteTeam(s, t)
  }

  // ---------------------------------------------------- referential integrity

  /** The integrity the data model intends: every enrolled id names a team on
      the roster and no event lists a team twice. Capacity is deliberately
      absent: no handler keeps it (see `EnrollIgnoresCapacity`). */
  predicate Consistent(s: AppState) {
    forall i :: 0 <= i < |s.events| ==>
      NoDup(s.events[i].enrolledTeams)
      && forall id :: id in s.events[i].enrolledTeams ==> id in TeamIds(s.teams)
  }

  /** The intents the views can actually produce: an enrolment always names
      a team taken from the roster. */
  predicate Offered(s: AppState, intent: Intent) {
    intent.EnrollTeam? ==> intent.teamId in TeamIds(s.teams)
  }

  /** Every handler keeps the state consistent; for deletion this is exactly
      what the cascade over `enrolledTeams` is for. */
  lemma DispatchKeepsConsistent(s: AppState, intent: Intent)
    requires Consistent(s) && Offered(s, intent)
    ensures Consistent(Dispatch(s, intent))
  {
    var r := Dispatch(s, intent);
    match intent
    case EnrollTeam(e, t) =>
      forall i | 0 <= i < |r.events|
        ensures NoDup(r.events[i].enrolledTeams)
      {
        EnrollNoDup(s.events, e, t, i);
      }
    case UnenrollTeam(e, t) =>
      forall i | 0 <= i < |r.events|
        ensures NoDup(r.events[i].enrolledTeams)
        ensures forall id :: id in r.events[i].enrolledTeams ==> id in TeamIds(r.teams)
      {
        if s.events[i].id == e {
          FilterNoDup(s.events[i].enrolledTeams, OtherId(t));
        }
      }
    case UpdateMatch(_, _, _, _) =>
      assert forall i :: 0 <= i < |r.events| ==>
        r.events[i].enrolledTeams == s.events[i].enrolledTeams;
    case AddNewTeam(_) =>
    case DeleteTeamById(t) =>
      forall i | 0 <= i < |r.events|
        ensures NoDup(r.events[i].enrolledTeams)
        ensures forall id :: id in r.events[i].enrolledTeams ==> id in TeamIds(r.teams)
      {
        FilterNoDup(s.events[i].enrolledTeams, OtherId(t));
        forall id | id in r.events[i].enrolledTeams
          ensures id in TeamIds(r.teams)
        {
          assert multiset(r.events[i].enrolledTeams)[id] > 0;
        }
      }
  }
}

=== FILE: match_tracker.dfy ===
/** The match tracker view: every match of every event, tagged with its
    event's name and date, split into active and completed matches; the
    completed ones newest event first, each with its winner. */
module MatchTracker {
  import opened Seqs
  import opened Model

  /** A match as the tracker lists it: `{ ...match, eventName, eventDate }`. */
  datatype Tracked = Tracked(m: Match, eventName: string, eventDate: Timestamp)

  /** The matches of one event, tagged with that event. */
  function Tagged(e: Event): (r: seq<Tracked>)
    ensures |r| == |MatchesOf(e)|
    ensures forall j :: 0 <= j < |r| ==>
              r[j].m == MatchesOf(e)[j] && r[j].eventName == e.name && r[j].eventDate == e.date
  {
    var ms := MatchesOf(e);
    seq(|ms|, j requires 0 <= j < |ms| => Tracked(ms[j], e.name, e.date))
  }

  /** `allMatches`: the tagged matches of all events, in event order. */
  function AllMatches(events: seq<Event>): (r: seq<Tracked>)
    ensures |events| > 0 ==>
              |MatchesOf(events[0])| <= |r| && r[..|MatchesOf(events[0])|] == Tagged(events[0])
    decreases |events|
  {
    if |events| == 0 then []
    else
      Tagged(events[0]) + AllMatches(events[1..])
  }

  /** `t` is one of the tagged matches of some event of `events`. */
  ghost predicate FromSomeEvent(events: seq<Event>, t: Tracked) {
    exists i :: 0 <= i < |events| && t in Tagged(events[i])
  }

  lemma FromSomeEventStep(events: seq<Event>, t: Tracked)
    requires |events| > 0
    ensures FromSomeEvent(events, t) <==> t in Tagged(events[0]) || FromSomeEvent(events[1..], t)
  {
    if FromSomeEvent(events, t) && t !in Tagged(events[0]) {
      var i :| 0 <= i < |events| && t in Tagged(events[i]);
      assert events[1..][i - 1] == events[i];
    }
    if FromSomeEvent(events[1..], t) {
      var i :| 0 <= i < |events[1..]| && t in Tagged(events[1..][i]);
      assert events[i + 1] == events[1..][i];
    }
  }

  /** The flattened list holds exactly the tagged matches of the events:
      every listed match comes from an event and carries that event's name
      and date, and no event's match is missing. */
  lemma {:induction false} AllMatchesMembers(events: seq<Event>)
    ensures forall t :: t in AllMatches(events) <==> FromSomeEvent(events, t)
    decreases |events|
  {
    if |events| > 0 {
      AllMatchesMembers(events[1..]);
      forall t
        ensures t in AllMatches(events) <==> FromSomeEvent(events, t)
      {
        FromSomeEventStep(events, t);
      }
    }
  }

  /** Flattening distributes over concatenation: each event's block of
      matches keeps its position, so the order is the event order. */
  lemma {:induction false} AllMatchesConcat(a: seq<Event>, b: seq<Event>)
    ensures AllMatches(a + b) == AllMatches(a) + AllMatches(b)
    decreases |a|
  {
    if |a| == 0 {
      assert a + b == b;
    } else {
      assert (a + b)[0] == a[0];
      assert (a + b)[1..] == a[1..] + b;
      AllMatchesConcat(a[1..], b);
    }
  }

  /** One event on its own flattens to its tagged matches. */
  lemma AllMatchesOne(e: Event)
    ensures AllMatches([e]) == Tagged(e)
  {
    assert [e][1..] == [];
    assert Tagged(e) + [] == Tagged(e);
  }

  /** An event without matches (absent list or empty list) contributes
      nothing wherever it stands. */
  lemma MatchlessEventContributesNothing(a: seq<Event>, e: Event, b: seq<Event>)
    requires e.matches.None? || e.matches == Some([])
    ensures AllMatches(a + [e] + b) == AllMatches(a + b)
  {
    AllMatchesOne(e);
    assert Tagged(e) == [];
    AllMatchesConcat(a + [e], b);
    AllMatchesConcat(a, [e]);
    assert AllMatches(a + [e]) == AllMatches(a);
    AllMatchesConcat(a, b);
  }

  /** `IsOpen` and `IsDone` lifted to tagged matches. */
  function OpenEntry(t: Tracked): bool { IsOpen(t.m) }

  function DoneEntry(t: Tracked): bool { IsDone(t.m) }

  /** The sort key of `(a, b) => b.eventDate - a.eventDate`. */
  function NegEventDate(t: Tracked): int { -t.eventDate }

  /** "Active Matches": every not-completed match, in flattened order. */
  function ActiveMatches(events: seq<Event>): (r: seq<Tracked>)
    ensures forall t :: t in r <==> t in AllMatches(events) && !t.m.completed
  {
    Filter(AllMatches(events), OpenEntry)
  }

  /** The active list keeps flattened order: it distributes over splitting
      the event list, and for one event it is that event's open matches in
      their stored order. */
  lemma ActiveMatchesOrder(a: seq<Event>, b: seq<Event>, e: Event)
    ensures ActiveMatches(a + b) == ActiveMatches(a) + ActiveMatches(b)
    ensures ActiveMatches([e]) == Filter(Tagged(e), OpenEntry)
  {
    AllMatchesConcat(a, b);
    FilterConcat(AllMatches(a), AllMatches(b), OpenEntry);
    AllMatchesOne(e);
  }

  /** "Completed Matches": every completed match, newest event first. */
  function CompletedMatches(events: seq<Event>): (r: seq<Tracked>)
    ensures forall t :: t in r <==> t in AllMatches(events) && t.m.completed
    ensures forall i, j :: 0 <= i < j < |r| ==> r[i].eventDate >= r[j].eventDate
  {
    var done := Filter(AllMatches(events), DoneEntry);
    var r := SortByKey(done, NegEventDate);
    SameMembers(r, done);
    assert forall i, j :: 0 <= i < j < |r| ==> r[i].eventDate >= r[j].eventDate by {
      forall i, j | 0 <= i < j < |r|
        ensures r[i].eventDate >= r[j].eventDate
      {
        assert NegEventDate(r[i]) <= NegEventDate(r[j]);
      }
    }
    r
  }

  /** Active and completed matches together are a permutation of all
      matches. */
  lemma TrackerPartition(events: seq<Event>)
    ensures multiset(ActiveMatches(events)) + multiset(CompletedMatches(events))
         == multiset(AllMatches(events))
  {
    FilterPartition(AllMatches(events), DoneEntry, OpenEntry);
  }

  /** Completed matches of events on the same date keep flattened order
      (`k` is the negated date the sort compares). */
  lemma CompletedStable(events: seq<Event>, k: int)
    ensures WithKey(CompletedMatches(events), NegEventDate, k)
         == WithKey(Filter(AllMatches(events), DoneEntry), NegEventDate, k)
  {
    var done := Filter(AllMatches(events), DoneEntry);
    calc {
      WithKey(CompletedMatches(events), NegEventDate, k);
      WithKey(SortByKey(done, NegEventDate), NegEventDate, k);
      { SortStable(done, NegEventDate, k); }
      WithKey(done, NegEventDate, k);
    }
  }

  /** `score1 > score2 ? team1 : team2`. */
  function Winner(m: Match): (r: TeamId)
    ensures r == m.team1 || r == m.team2
    ensures m.score1 > m.score2 ==> r == m.team1
    ensures m.score1 < m.score2 ==> r == m.team2
  {
    if m.score1 > m.score2 then m.team1 else m.team2
  }

  /** The match seen from the other side. */
  function Swapped(m: Match): Match {
    m.(team1 := m.team2, team2 := m.team1, score1 := m.score2, score2 := m.score1)
  }

  /** The winner does not depend on which side is listed first unless the
      scores tie; a tie always goes to whichever team is listed second. */
  lemma WinnerSides(m: Match)
    ensures m.score1 != m.score2 ==> Winner(Swapped(m)) == Winner(m)
    ensures m.score1 == m.score2 ==> Winner(m) == m.team2 && Winner(Swapped(m)) == m.team1
  {
  }
}

=== FILE: model.dfy ===
/** The three record types the console keeps in memory (teams, events and
    the matches owned by an event) and the team-name lookup both event
    views use. Dates are abstracted to integer timestamps; the current
    instant is always a parameter. */
module Model {
  import opened Seqs

  type TeamId = string
  type EventId = string
  type MatchId = string

  /** Milliseconds since the epoch, as `Date.prototype.getTime` yields it. */
  type Timestamp = int

  datatype Team = Team(id: TeamId, name: string, player1: string, player2: string)

  datatype Match = Match(
    id: MatchId,
    eventId: EventId,
    team1: TeamId,
    team2: TeamId,
    score1: int,
    score2: int,
    completed: bool)

  /** The stored status; no logic ever reads it. */
  datatype Status = Upcoming | Past

  datatype Event = Event(
    id: EventId,
    name: string,
    date: Timestamp,
    location: string,
    maxTeams: int,
    enrolledTeams: seq<TeamId>,
    status: Status,
    matches: Option<seq<Match>>)

  /** The whole client-held state: the event list and the team roster. */
  datatype AppState = AppState(events: seq<Event>, teams: seq<Team>)

  /** `event.matches || []`: an absent match list reads as empty. */
  function MatchesOf(e: Event): (r: seq<Match>)
    ensures e.matches.Some? ==> r == e.matches.value
    ensures |r| == 0 <==> e.matches.None? || e.matches == Some([])
  {
    match e.matches
    case None => []
    case Some(ms) => ms
  }

  /** A match still being played. */
  function IsOpen(m: Match): bool { !m.completed }

  /** A match whose result is final. */
  function IsDone(m: Match): bool { m.completed }

  /** An event is past once its date lies strictly before `now`. */
  predicate IsPast(e: Event, now: Timestamp) {
    e.date < now
  }

  /** At its own instant an event is not yet past, one millisecond later it
      is, and once past it stays past as time advances. */
  lemma PastIsFinal(e: Event, now: Timestamp, later: Timestamp)
    requires now <= later
    ensures !IsPast(e, e.date) && IsPast(e, e.date + 1)
    ensures IsPast(e, now) ==> IsPast(e, later)
  {
  }

  /** The ids of the teams on the roster. */
  function TeamIds(teams: seq<Team>): set<TeamId> {
    set t | t in teams :: t.id
  }

  /** `teams.find(t => t.id === id)`: the first team with that id. */
  function FindTeam(teams: seq<Team>, id: TeamId): (r: Option<Team>)
    ensures r.None? <==> id !in TeamIds(teams)
    ensures r.Some? ==> exists i :: 0 <= i < |teams| && teams[i] == r.value
                          && r.value.id == id
                          && forall j :: 0 <= j < i ==> teams[j].id != id
    decreases |teams|
  {
    if |teams| == 0 then None
    else if teams[0].id == id then Some(teams[0])
    else
      var r := FindTeam(teams[1..], id);
      assert TeamIds(teams) == {teams[0].id} + TeamIds(teams[1..]) by {
        assert teams == [teams[0]] + teams[1..];
      }
      assert r.Some? ==> exists i :: 0 <= i < |teams| && teams[i] == r.value
                          && r.value.id == id
                          && forall j :: 0 <= j < i ==> teams[j].id != id by {
        if r.Some? {
          var i :| 0 <= i < |teams[1..]| && teams[1..][i] == r.value
                   && r.value.id == id
                   && forall j :: 0 <= j < i ==> teams[1..][j].id != id;
          assert teams[i + 1] == r.value;
          assert forall j :: 0 <= j < i + 1 ==> teams[j].id != id by {
            forall j | 0 <= j < i + 1
              ensures teams[j].id != id
            {
              if j > 0 {
                assert teams[j] == teams[1..][j - 1];
              }
            }
          }
        }
      }
      r
  }

  const UnknownTeam: string := "Unknown Team"

  /** `getTeamName`: `find(...)?.name || 'Unknown Team'`. The `||` falls
      back on an empty name as well as on a missing team. */
  function TeamName(teams: seq<Team>, id: TeamId): (r: string)
    ensures r != ""
    ensures id !in TeamIds(teams) ==> r == UnknownTeam
    ensures r == UnknownTeam
         || exists i :: 0 <= i < |teams| && teams[i].id == id && teams[i].name == r
                        && forall j :: 0 <= j < i ==> teams[j].id != id
    ensures forall i :: 0 <= i < |teams| && teams[i].id == id && teams[i].name != ""
                        && (forall j :: 0 <= j < i ==> teams[j].id != id)
                        ==> r == teams[i].name
  {
    match FindTeam(teams, id)
    case Some(t) =>
      assert forall i, i' :: 0 <= i < |teams| && 0 <= i' < |teams|
               && teams[i].id == id && teams[i'].id == id
               && (forall j :: 0 <= j < i ==> teams[j].id != id)
               && (forall j :: 0 <= j < i' ==> teams[j].id != id)
               ==> i == i';
      if t.name != "" then t.name else UnknownTeam
    case None => UnknownTeam
  }
}

=== FILE: seqs.dfy ===
/** Generic sequence operations the console's views and handlers are built
    from: an optional value, order-preserving filtering (`Array.filter`) and
    a stable sort by an integer key (`Array.sort` with a numeric
    comparator, which ECMAScript requires to be stable). */
module Seqs {

  /** A value that may be absent (`undefined` in the source). */
  datatype Option<T> = None | Some(value: T)

  /** True iff no element occurs twice. */
  predicate NoDup<T(==,!new)>(s: seq<T>) {
    forall i, j :: 0 <= i < j < |s| ==> s[i] != s[j]
  }

  /** The elements of `s` that satisfy `p`, in their original order. */
  function Filter<T(==,!new)>(s: seq<T>, p: T -> bool): (r: seq<T>)
    ensures |r| <= |s|
    ensures forall x :: x in r <==> x in s && p(x)
    decreases |s|
  {
    if |s| == 0 then []
    else
      assert s == [s[0]] + s[1..];
      if p(s[0]) then [s[0]] + Filter(s[1..], p) else Filter(s[1..], p)
  }

  /** Filtering keeps every copy of an element that passes and none of one
      that fails. */
  lemma {:induction false} FilterCount<T(!new)>(s: seq<T>, p: T -> bool)
    ensures forall x :: multiset(Filter(s, p))[x] == if p(x) then multiset(s)[x] else 0
    decreases |s|
  {
    if |s| > 0 {
      assert s == [s[0]] + s[1..];
      FilterCount(s[1..], p);
    }
  }

  /** Filtering distributes over concatenation, so it keeps relative order. */
  lemma {:induction false} FilterConcat<T(!new)>(a: seq<T>, b: seq<T>, p: T -> bool)
    ensures Filter(a + b, p) == Filter(a, p) + Filter(b, p)
    decreases |a|
  {
    if |a| == 0 {
      assert a + b == b;
    } else {
      assert (a + b)[0] == a[0];
      assert (a + b)[1..] == a[1..] + b;
      FilterConcat(a[1..], b, p);
    }
  }

  /** A filter that keeps every element is the identity. */
  lemma {:induction false} FilterKeepsAll<T(!new)>(s: seq<T>, p: T -> bool)
    requires forall x :: x in s ==> p(x)
    ensures Filter(s, p) == s
    decreases |s|
  {
    if |s| > 0 {
      assert p(s[0]) by { assert s[0] in s; }
      assert forall x :: x in s[1..] ==> x in s;
      FilterKeepsAll(s[1..], p);
      assert s == [s[0]] + s[1..];
    }
  }

  /** On one element the filter keeps it iff it passes; with
      `FilterConcat` this pins down the result of any filter. */
  lemma FilterSingleton<T(!new)>(x: T, p: T -> bool)
    ensures Filter([x], p) == if p(x) then [x] else []
  {
    assert [x][1..] == [];
  }

  /** Filtering by `p` and by its complement `q` splits `s` into two parts
      that together are a permutation of `s`. */
  lemma FilterPartition<T(!new)>(s: seq<T>, p: T -> bool, q: T -> bool)
    requires forall x :: x in s ==> q(x) == !p(x)
    ensures multiset(Filter(s, p)) + multiset(Filter(s, q)) == multiset(s)
  {
    FilterCount(s, p);
    FilterCount(s, q);
    var a, b := multiset(Filter(s, p)), multiset(Filter(s, q));
    forall x
      ensures (a + b)[x] == multiset(s)[x]
    {
      if x !in s {
        assert multiset(s)[x] == 0;
      }
    }
  }

  /** Filtering keeps a duplicate-free sequence duplicate-free. */
  lemma {:induction false} FilterNoDup<T(!new)>(s: seq<T>, p: T -> bool)
    requires NoDup(s)
    ensures NoDup(Filter(s, p))
    decreases |s|
  {
    if |s| > 0 {
      assert NoDup(s[1..]) by {
        forall i, j | 0 <= i < j < |s[1..]|
          ensures s[1..][i] != s[1..][j]
        {
          assert s[1..][i] == s[i + 1] && s[1..][j] == s[j + 1];
        }
      }
      FilterNoDup(s[1..], p);
      assert s[0] !in s[1..] by {
        forall k | 0 <= k < |s[1..]|
          ensures s[1..][k] != s[0]
        {
          assert s[1..][k] == s[k + 1];
        }
      }
    }
  }

  /** `s` is in non-decreasing order of `key`. */
  predicate SortedBy<T>(s: seq<T>, key: T -> int) {
    forall i, j :: 0 <= i < j < |s| ==> key(s[i]) <= key(s[j])
  }

  /** Putting in front of a sorted sequence an element whose key is at most
      every key there keeps it sorted. */
  lemma SortedCons<T>(y: T, t: seq<T>, key: T -> int)
    requires SortedBy(t, key)
    requires forall z :: z in t ==> key(y) <= key(z)
    ensures SortedBy([y] + t, key)
  {
    var r := [y] + t;
    forall i, j | 0 <= i < j < |r|
      ensures key(r[i]) <= key(r[j])
    {
      assert r[j] == t[j - 1];
      if i > 0 {
        assert r[i] == t[i - 1];
      } else {
        assert t[j - 1] in t;
      }
    }
  }

  /** Sequences that are permutations of each other have the same members. */
  lemma SameMembers<T>(a: seq<T>, b: seq<T>)
    requires multiset(a) == multiset(b)
    ensures forall x :: x in a <==> x in b
  {
    forall x ensures x in a <==> x in b {
      assert x in a <==> x in multiset(a);
      assert x in b <==> x in multiset(b);
    }
  }

  /** In a sorted sequence the first key is the least. */
  lemma SortedHead<T>(s: seq<T>, key: T -> int)
    requires SortedBy(s, key) && |s| > 0
    ensures forall z :: z in s ==> key(s[0]) <= key(z)
  {
    forall z | z in s
      ensures key(s[0]) <= key(z)
    {
      var k :| 0 <= k < |s| && s[k] == z;
      if k > 0 {
        assert key(s[0]) <= key(s[k]);
      }
    }
  }

  /** Inserts `x` before the first element whose key is not smaller, so in
      a sorted `s` it precedes the elements it ties with. */
  function Insert<T(==,!new)>(x: T, s: seq<T>, key: T -> int): (r: seq<T>)
    ensures multiset(r) == multiset(s) + multiset{x}
    ensures |r| == |s| + 1
    decreases |s|
  {
    if |s| == 0 then [x]
    else if key(x) <= key(s[0]) then [x] + s
    else
      assert s == [s[0]] + s[1..];
      [s[0]] + Insert(x, s[1..], key)
  }

  /** Insertion into a sorted sequence keeps it sorted. */
  lemma {:induction false} InsertSorted<T(!new)>(x: T, s: seq<T>, key: T -> int)
    requires SortedBy(s, key)
    ensures SortedBy(Insert(x, s, key), key)
    decreases |s|
  {
    if |s| == 0 {
    } else if key(x) <= key(s[0]) {
      SortedHead(s, key);
      SortedCons(x, s, key);
    } else {
      var rest := s[1..];
      assert SortedBy(rest, key) by {
        forall i, j | 0 <= i < j < |rest|
          ensures key(rest[i]) <= key(rest[j])
        {
          assert rest[i] == s[i + 1] && rest[j] == s[j + 1];
        }
      }
      InsertSorted(x, rest, key);
      var ins := Insert(x, rest, key);
      SortedHead(s, key);
      assert forall z :: z in ins ==> key(s[0]) <= key(z) by {
        forall z | z in ins
          ensures key(s[0]) <= key(z)
        {
          assert z in multiset(ins);
          assert z == x || z in rest;
          assert s == [s[0]] + rest;
        }
      }
      SortedCons(s[0], ins, key);
    }
  }

  /** Stable sort of `s` by ascending `key`. */
  function SortByKey<T(==,!new)>(s: seq<T>, key: T -> int): (r: seq<T>)
    ensures SortedBy(r, key)
    ensures multiset(r) == multiset(s)
    ensures |r| == |s|
    decreases |s|
  {
    if |s| == 0 then []
    else
      assert s == [s[0]] + s[1..];
      InsertSorted(s[0], SortByKey(s[1..], key), key);
      Insert(s[0], SortByKey(s[1..], key), key)
  }

  /** The elements of `s` whose key is `k`, in their order in `s`. */
  function WithKey<T(==,!new)>(s: seq<T>, key: T -> int, k: int): seq<T> {
    Filter(s, KeyIs(key, k))
  }

  /** The test "has key `k`". */
  function KeyIs<T>(key: T -> int, k: int): T -> bool {
    x => key(x) == k
  }

  lemma {:induction false} InsertWithKey<T(!new)>(x: T, s: seq<T>, key: T -> int, k: int)
    requires SortedBy(s, key)
    ensures WithKey(Insert(x, s, key), key, k)
         == (if key(x) == k then [x] else []) + WithKey(s, key, k)
    decreases |s|
  {
    var f := KeyIs(key, k);
    if |s| == 0 {
      assert Insert(x, s, key) == [x] + s;
      FilterConcat([x], s, f);
    } else if key(x) <= key(s[0]) {
      assert Insert(x, s, key) == [x] + s;
      FilterConcat([x], s, f);
    } else {
      var rest := s[1..];
      assert s == [s[0]] + rest;
      assert SortedBy(rest, key);
      var ins := Insert(x, rest, key);
      assert Insert(x, s, key) == [s[0]] + ins;
      assert !f(s[0]) || !f(x);
      InsertWithKey(x, rest, key, k);
      FilterConcat([s[0]], ins, f);
      FilterConcat([s[0]], rest, f);
    }
  }

  /** Sorting is stable: the elements that share a key keep their relative
      order. Together with `SortedBy` and the multiset equality this pins
      the result of `SortByKey` down uniquely. */
  lemma {:induction false} SortStable<T(!new)>(s: seq<T>, key: T -> int, k: int)
    ensures WithKey(SortByKey(s, key), key, k) == WithKey(s, key, k)
    decreases |s|
  {
    if |s| > 0 {
      assert s == [s[0]] + s[1..];
      SortStable(s[1..], key, k);
      InsertWithKey(s[0], SortByKey(s[1..], key), key, k);
      FilterConcat([s[0]], s[1..], KeyIs(key, k));
    }
  }
}

=== FILE: team_manager.dfy ===
/** The team manager's add-team form: visibility plus three text fields,
    with toggle, edit, submit and cancel. A successful submit builds a team
    whose id is "t" followed by the decimal digits of the submit time. */
module TeamManager {
  import opened Seqs
  import opened Model
  import opened Handlers

  // ------------------------------------------------------ decimal team ids

  predicate IsDigit(c: char) { '0' <= c <= '9' }

  function DigitChar(d: nat): (c: char)
    requires d < 10
    ensures IsDigit(c) && c as int - '0' as int == d
  {
    ('0' as int + d) as char
  }

  /** The decimal spelling of `n`: no sign, no leading zeros. A template
      literal prints an integer number this way only below 10^21; from
      there on JavaScript uses exponent form (`1e+21`), which a
      millisecond timestamp does not reach for millions of years. */
  function Decimal(n: nat): (r: string)
    ensures |r| >= 1
    ensures forall k :: 0 <= k < |r| ==> IsDigit(r[k])
    ensures |r| > 1 ==> r[0] != '0'
    decreases n
  {
    if n < 10 then [DigitChar(n)] else Decimal(n / 10) + [DigitChar(n % 10)]
  }

  /** The number a string of decimal digits denotes. */
  function DecimalValue(s: string): nat
    requires forall k :: 0 <= k < |s| ==> IsDigit(s[k])
    decreases |s|
  {
    if |s| == 0 then 0
    else
      assert IsDigit(s[|s| - 1]);
      var d := s[|s| - 1] as int - '0' as int;
      10 * DecimalValue(s[..|s| - 1]) + d
  }

  /** Reading back the decimal spelling gives the number. */
  lemma {:induction false} DecimalRoundTrip(n: nat)
    ensures DecimalValue(Decimal(n)) == n
    decreases n
  {
    if n >= 10 {
      var s := Decimal(n);
      assert s[..|s| - 1] == Decimal(n / 10);
      DecimalRoundTrip(n / 10);
    }
  }

  /** `` `t${Date.now()}` `` for a submit at time `now`. */
  function NewTeamId(now: nat): (r: TeamId)
    ensures |r| >= 2 && r[0] == 't'
    ensures forall k :: 1 <= k < |r| ==> IsDigit(r[k])
    ensures forall k :: 0 <= k < |r[1..]| ==> IsDigit(r[1..][k])
    ensures DecimalValue(r[1..]) == now
  {
    var d := Decimal(now);
    DecimalRoundTrip(now);
    assert ("t" + d)[1..] == d;
    "t" + d
  }

  /** Submits at different instants never produce the same team id. */
  lemma NewTeamIdInjective(a: nat, b: nat)
    ensures NewTeamId(a) == NewTeamId(b) ==> a == b
  {
    if NewTeamId(a) == NewTeamId(b) {
      assert Decimal(a) == NewTeamId(a)[1..];
      assert Decimal(b) == NewTeamId(b)[1..];
      DecimalRoundTrip(a);
      DecimalRoundTrip(b);
    }
  }

  // ----------------------------------------------------------------- form

  datatype Form = Form(shown: bool, teamName: string, player1: string, player2: string)

  /** The initial state, and the state after a submit or a cancel. */
  const Closed: Form := Form(false, "", "", "")

  /** "Add Team": flips visibility, keeps whatever was typed. */
  function Toggle(f: Form): (r: Form)
    ensures r.shown != f.shown
    ensures r.(shown := f.shown) == f
  {
    f.(shown := !f.shown)
  }

  /** Pressing "Add Team" twice restores the form. */
  lemma ToggleTwice(f: Form)
    ensures Toggle(Toggle(f)) == f
  {
  }

  datatype Field = TeamName | Player1 | Player2

  /** Typing into one of the three inputs. */
  function Edit(f: Form, field: Field, value: string): (r: Form)
    ensures r.shown == f.shown
    ensures r.teamName == (if field == TeamName then value else f.teamName)
    ensures r.player1 == (if field == Player1 then value else f.player1)
    ensures r.player2 == (if field == Player2 then value else f.player2)
  {
    match field
    case TeamName => f.(teamName := value)
    case Player1 => f.(player1 := value)
    case Player2 => f.(player2 := value)
  }

  /** "Cancel": hides the form and clears every field, whatever it held. */
  function Cancel(f: Form): (r: Form)
    ensures !r.shown && r.teamName == "" && r.player1 == "" && r.player2 == ""
  {
    Closed
  }

  /** `handleSubmit` at time `now`: with all three fields non-empty it
      builds the team and closes the form; otherwise nothing happens. */
  function Submit(f: Form, now: nat): (r: (Form, Option<Team>))
    ensures r.1.Some? <==> f.teamName != "" && f.player1 != "" && f.player2 != ""
    ensures r.1.Some? ==>
              r.1.value.name == f.teamName && r.1.value.player1 == f.player1
              && r.1.value.player2 == f.player2 && r.1.value.id == NewTeamId(now)
              && r.0 == Closed
    ensures r.1.None? ==> r.0 == f
  {
    if f.teamName != "" && f.player1 != "" && f.player2 != "" then
      (Closed, Some(Team(NewTeamId(now), f.teamName, f.player1, f.player2)))
    else (f, None)
  }

  /** A submit as the console sees it: the form changes and, on success,
      the new team is dispatched to the roster. */
  function SubmitToApp(s: AppState, f: Form, now: nat): (r: (AppState, Form))
    ensures r.0.events == s.events
    ensures f.teamName != "" && f.player1 != "" && f.player2 != "" ==>
              |r.0.teams| == |s.teams| + 1
              && r.0.teams[..|s.teams|] == s.teams
              && r.0.teams[|s.teams|] == Team(NewTeamId(now), f.teamName, f.player1, f.player2)
              && r.1 == Closed
    ensures !(f.teamName != "" && f.player1 != "" && f.player2 != "") ==> r == (s, f)
  {
    var (f', created) := Submit(f, now);
    match created
    case Some(t) => (Dispatch(s, AddNewTeam(t)), f')
    case None => (s, f')
  }

  /** Submitting the form keeps the state consistent: it only ever adds a
      team, so every enrolled id still names one. */
  lemma SubmitKeepsConsistent(s: AppState, f: Form, now: nat)
    requires Consistent(s)
    ensures Consistent(SubmitToApp(s, f, now).0)
  {
    var (f', created) := Submit(f, now);
    if created.Some? {
      DispatchKeepsConsistent(s, AddNewTeam(created.value));
    }
  }
}
